=== FILE: README.md ===
# RollOut webhook deploy: a Dafny model

RollOut is a small docker deploy daemon with a matching client. The client
signs a deployment request, which is a stack file, a stack name and an
environment. The daemon checks the signature and then runs
`docker stack deploy` with that request. This project models the decision
logic of both halves and proves properties about it:

- `Commands` (app/commands.py) builds the argument list for
  `docker stack deploy`. It turns the docker process outcome into a `Result`
  or an `Error`. `Result` is declared with `stderr` first and filled in
  positionally, so a successful run puts the captured standard output under
  `stderr` and the captured standard error under `stdout`. The model keeps
  this as written, and `Commands.DeployOutcome` and
  `Engine.SuccessResponse` state it.
- `Engine` (app/engine.py) is the request handler, modelled as one pure
  function from the request, the secret, the clock and the foreign calls to
  a `Response`. It runs these steps in order:
  1. take the token from the header;
  2. decode the token, with `exp` required;
  3. compare the SHA-512 hex digest of the body with the `body_hash` claim;
  4. take `file`, `name` and `env` from the JSON body;
  5. run the stack deploy, always with pruning and registry authentication.

  Each exception the handler catches becomes an early return: 401, 400 or
  444. An exception it does not catch is `ServerError` (500).
- `Cli` (app/cli.py) is the client command. It parses the `-e NAME=VALUE`
  options and decides whether the stack file comes from standard input. It
  builds the body and the token claims, signs them, and classifies the reply
  status. `Cli.Deploy` runs these steps in sequence.
- `Protocol` joins the two halves. A request the client signed, presented
  unchanged before expiry, deploys exactly the client's text, name and
  environment. An expired token or a tampered body is refused with 401. The
  client's report and exit status are given for each answer of the daemon.

Code outside this model is passed in as function-valued parameters. The
`Foreign.Oracles` record covers SHA-512, HS256 token encoding and signature
checking, the token library's checks of `iat`, `nbf`, `iss` and `aud`, JSON
text and the docker subprocess. The HTTP post, file reading and standard
input are separate parameters of `Cli.Deploy`.
The model does not interpret these functions. Each property that needs
something from them says so in a `requires`. For example, the round trip
needs the token library to decode the token it encoded, and the JSON parser
to read back what was serialised.

Behaviour of the code worth knowing:

- The daemon runs in stack mode only and never reads the body's `command`
  field.
- A JSON body that is not an object, or a `body_hash` claim that is not
  ASCII text, raises an exception the handler does not catch. That is a
  500, not a 400 or a 401.
- The success body carries the two streams swapped.
- A token expires when `exp <= now`. This is the comparison of the token
  library, PyJWT 2.
- A signed `exp` that is a list or an object makes the token library raise
  a `TypeError`, which the handler does not catch. That is a 500, not a 401.
  A null `exp` counts as missing and gives 401.
- `algorithms="HS256"` is passed as text, not a list, so a token header
  whose `alg` is neither text nor falsy makes the signature stage raise a
  `TypeError`. A falsy `alg` is refused with `InvalidAlgorithmError`, which
  gives 401.
  That is a 500, and it needs no secret.

## Model

| member | source | states |
|---|---|---|
| `Digest.Hex` | app/engine.py:37 | `hexdigest()` renders each byte as two lower-case hex digits. The text is twice as long as the digest and holds only hex digits. |
| `Digest.UnhexHex` | app/engine.py:37 | Reading the hex text back gives the digest bytes. |
| `Digest.HexInjective` | app/engine.py:37 | Two digests with the same hex text are equal. The text comparison therefore decides digest equality. |
| `Digest.DigestTextIsAscii` | app/engine.py:37 | A SHA-512 hex digest is 128 ASCII characters, so `compare_digest` accepts it. |
| `Commands.StackParams` | app/commands.py:61-69 | The arguments start with `-c -`, so the compose file is read from standard input. The stack name is last. The length is 3, plus 1 for prune, plus 1 for auth. `--prune` is among the options iff `prune`. `--with-registry-auth` is among them iff `auth`. When both are present, `--prune` comes first. No other option appears. |
| `Commands.DeployOutcome` | app/commands.py:59-75 | docker runs with these arguments, the file text as stdin and `env or {}`. The outcome is a failure iff the exit status is non-zero. The `Error` carries that status and both streams unchanged. A `Result` holds the captured stdout in its `stderr` field and the captured stderr in its `stdout` field. |
| `Commands.Deploy` | app/commands.py:39-75 | Builds the argument list with conditional appends, runs docker once and returns exactly `DeployOutcome`. |
| `Commands.EnvOrEmpty` | app/commands.py:59 | `env or dict()`: an absent environment is the empty one, and a given environment is passed on unchanged. |
| `Commands.AbsentEnvIsEmpty` | app/commands.py:59 | An absent environment and an empty one run docker identically. |
| `Engine.RemovePrefix` | app/engine.py:34 | `str.removeprefix`: with the prefix present, prefix plus result is the input. Otherwise the input comes back unchanged. |
| `Engine.TokenOf` | app/engine.py:34 | A missing header gives the empty token. Otherwise one leading `Bearer ` is removed if present. |
| `Engine.ExpValue` | app/engine.py:27-35 | `int(payload["exp"])`: an integer is itself and a boolean is 0 or 1. Text raises `ValueError`. Null, a list or an object raise `TypeError`. |
| `Engine.DecodeToken` | app/engine.py:27-35 | Claims come back iff the library verifies the signature, its `iat`/`nbf` and `iss`/`aud` checks pass, and `exp` is present, reads as an integer and is later than now. The claims returned are the library's. A signature stage that raises something else, or a list or object `exp` that reaches its check, raises a non-token exception. A rejected signature, or an `exp` that is absent or null, is an `InvalidTokenError`. The exception is not a token error exactly when the signature stage raises, or when the `exp` is present and not null and one of these holds: the `iat`/`nbf` check raises; that check passes and `exp` is a list or an object; or `exp` is unexpired and the `iss`/`aud` check raises. A text `exp` therefore gives an `InvalidTokenError`. |
| `Engine.BodyHashClaim` | app/engine.py:35 | `claims.get('body_hash', "")`: the claim when present, otherwise the empty text. |
| `Engine.EnvArgument` | app/engine.py:44 | The `env` value is accepted iff it is falsy or an object of strings. A falsy value gives docker the empty environment. An object gives an environment with the same keys, each bound to its string. |
| `Engine.Extract` | app/engine.py:42-44 | Reading `file`, `name`, `env` from a non-object raises `TypeError`. Reading from an object that lacks any of them raises `KeyError`. The fields are taken iff the body is an object holding `file` and `name` as strings and an `env` that is falsy or an object of strings, whatever other keys it has. Then `file` and `name` are the body's strings. The environment docker gets is empty for a falsy `env`, and otherwise the `env` object's strings. |
| `Engine.Admit` | app/engine.py:32-44 | The pipeline reaches the stack deploy only for an authenticated request. |
| `Engine.Catch` | app/engine.py:54-65 | `Error` gives 444 with its code and streams. `JSONDecodeError` and `KeyError` give 400. `AuthError` and `InvalidTokenError` give 401. The uncaught `TypeError` and `UnicodeDecodeError` give 500. |
| `Engine.RunStack` | app/engine.py:46 | The handler's `docker.stack.deploy(file, name, env)` keeps the defaults `prune=True, auth=True` of app/commands.py:39. docker therefore runs `-c - --prune --with-registry-auth <name>` with the file text and `env or {}`. A non-zero exit is an `Error` copying it, and a zero exit is a `Result` with the streams swapped. |
| `Engine.Handle` | app/engine.py:30-65 | A 200 or 444 answer implies the request was authenticated. An unauthenticated request gets 401, or 500 for a malformed claim or token header. |
| `Engine.ToWire` | app/engine.py:48-65 | The status is one of 200, 444, 400, 401 and 500. The body is JSON exactly for 200 and 444. 200 carries exactly `stdout` and `stderr`. 444 carries exactly `code`, `stdout` and `stderr`. 400 is the text "Malformed json". 401 is the text "Unauthorized". A server error is a 500 with a text body. |
| `Engine.InvalidTokenIsUnauthorized` | app/engine.py:34-35 | A token the library rejects gives 401, whatever the body. |
| `Engine.MissingExpIsUnauthorized` | app/engine.py:27 | A token whose `exp` is absent or null gives 401, whatever the body. |
| `Engine.UnverifiableTokenIsServerError` | app/engine.py:35 | A token on which the signature stage raises something other than `InvalidTokenError` (an `alg` that is neither text nor falsy) gives 500, whatever the body. |
| `Engine.ExpiredTokenIsUnauthorized` | app/engine.py:35 | A token whose `exp` is at or before now gives 401, whatever the body, unless the `iat`/`nbf` check raised first. |
| `Engine.NonNumericExpIsServerError` | app/engine.py:27-35 | A verified token whose `exp` is a list or an object, and whose `iat`/`nbf` check passes, gives 500, whatever the body. |
| `Engine.DigestMismatchIsUnauthorized` | app/engine.py:37-38 | An ASCII `body_hash` claim different from the body's hex digest gives 401. |
| `Engine.MissingBodyHashIsUnauthorized` | app/engine.py:35-38 | A valid token without `body_hash` gives 401, because the default `""` never equals the digest. |
| `Engine.AuthenticationPrecedesParsing` | app/engine.py:35-40 | Before authentication succeeds, the answer does not depend on the JSON parser or on docker. A bad token with an unparsable body therefore gives 401, not 400. |
| `Engine.MalformedAfterAuthentication` | app/engine.py:40-44 | Once authenticated, invalid JSON or an object missing `file`, `name` or `env` gives 400. |
| `Engine.RunsOnlyWhenAdmitted` | app/engine.py:35-46 | The stack deploy runs iff the token decodes, the digest matches and the JSON fields are taken. It runs `-c - --prune --with-registry-auth <name>` with the body's `file` and `name`. |
| `Engine.CommandFieldIgnored` | app/engine.py:42-46 | Changing the body's `command` key never changes what is deployed. |
| `Engine.CommandErrorResponse` | app/engine.py:54-61 | A non-zero exit gives 444 with the exit status and both streams copied from the error. |
| `Engine.SuccessResponse` | app/engine.py:46-53 | A zero exit gives 200 with `stdout` and `stderr` taken from the `Result` fields. The process's stderr is therefore under `stdout`, and its stdout under `stderr`. |
| `Engine.Classification` | app/engine.py:31-65 | Gives the exact condition for each of 401, 400, 444 and 200. 401 iff the library raises `InvalidTokenError` or an ASCII claim differs from the digest. 400 iff authenticated and the body is invalid JSON or lacks a field. 444 iff the deploy runs and exits non-zero. 200 iff it runs and exits zero. |
| `Cli.Split` | app/cli.py:29 | `str.split` on one character gives one more part than there are separators. Joining the parts with the separator gives back the text. No part contains the separator. |
| `Cli.EnvEntry` | app/cli.py:29-32 | An option is accepted iff it holds exactly one `=`. It is then `name=value` with neither side containing `=`. |
| `Cli.ParseEnv` | app/cli.py:28-32 | The options give an environment iff every option is accepted. |
| `Cli.ParseEnvStep` | app/cli.py:29 | Each option extends the environment built from the options before it, and its binding overrides theirs. |
| `Cli.ParseEnvNames` | app/cli.py:29 | The names bound are exactly the options' names. |
| `Cli.ParseEnvLaterWins` | app/cli.py:29 | A repeated name is bound to the value of its last option. |
| `Cli.EnvEntryRoundTrip` | app/cli.py:29-32 | `NAME=VALUE`, written for a name and a value without `=`, is read back as that pair. |
| `Cli.StripLeft` | app/cli.py:34 | Removes exactly the leading whitespace and keeps the rest as a suffix of the input. |
| `Cli.StripRight` | app/cli.py:34 | Removes exactly the trailing whitespace and keeps the rest as a prefix of the input. |
| `Cli.Strip` | app/cli.py:34 | `str.strip()`: the result is a slice of the input with only whitespace before and after it, and it neither starts nor ends with whitespace. |
| `Cli.StrippedDash` | app/cli.py:34 | `file.strip() == '-'` iff the argument is a single `-` surrounded only by whitespace. |
| `Cli.SourceOf` | app/cli.py:34-38 | The text comes from stdin iff the argument strips to `-`. Otherwise it comes from the argument as a path, unstripped. |
| `Cli.RequestBody` | app/cli.py:40-45 | The body object has exactly the keys `command`, `file`, `name` and `env`. `env` holds every option binding as a string. |
| `Cli.Sign` | app/cli.py:40-49 | The posted bytes are the serialised body. The claims are exactly `exp` and `body_hash`. `exp` is the issue time plus 300. `body_hash` is the hex SHA-512 of exactly the posted bytes. The header is `Bearer ` followed by the encoded claims. |
| `Cli.TimestampAsWritten` | app/cli.py:47 | The timestamp as written is the true time minus the local UTC offset. It equals the true time iff the local offset is zero. It is earlier than the true time iff the client is east of UTC. |
| `Cli.AsWrittenExpiryPrecedesSigning` | app/cli.py:47 | As written, a client at least 300 s east of UTC computes an `exp` that is not later than the true signing time. |
| `Cli.ExitStatus` | app/cli.py:32-73 | The process exits 0 after "unauthorized" or "Okay". It exits 1 after a malformed option, a failed command or an uncaught exception. |
| `Cli.Classify` | app/cli.py:51-73 | 401 reports "unauthorized" and exits 0, without reading a body. 444 with a JSON object holding `code`, `stdout` and `stderr` reports a failed command. Any other status with a JSON object holding `stdout` and `stderr` reports "Okay". Anything else is an uncaught exception. The exit status is 1 exactly for a failed command or an exception. |
| `Cli.Deploy` | app/cli.py:25-73 | Nothing is sent iff some `-e` option is malformed, and then the exit status is 1. Otherwise it posts the signed request for the text from stdin or from the file. The corrected timestamp starts the token lifetime (see Findings). The reply is then classified. |
| `Protocol.EnvRoundTrip` | app/cli.py:44 | The daemon reads the client's `env` object back as the same environment for docker. |
| `Protocol.SignedRequestRuns` | app/engine.py:30-53 | A signed request presented unchanged before `exp` runs `docker stack deploy -c - --prune --with-registry-auth <name>`. It gets the client's text as stdin and the client's environment. The answer is that run's 200 or 444. |
| `Protocol.ExpiredTokenRejected` | app/engine.py:35 | A signed token presented at or after its `exp` gets 401, whatever body comes with it. |
| `Protocol.TamperedBodyRejected` | app/engine.py:37-38 | A token signed for one body gets 401 when it comes with a body whose digest differs. |
| `Protocol.AsWrittenTokenExpiresOnArrival` | app/cli.py:47 | With the timestamp as written, a client at least 300 s east of UTC gets 401 for a request presented at the instant it was signed. |
| `Protocol.AsWrittenWestTokenOutlivesLifetime` | app/cli.py:47 | With the timestamp as written, a client west of UTC has its request authenticated and deployed after the intended 300 s, up to 300 s plus the size of its offset. |
| `Protocol.FreshTokenAccepted` | app/cli.py:47 | With the corrected timestamp, the request is authenticated and deployed within 300 s, in every time zone. |
| `Protocol.ClientReadsServer` | app/cli.py:51-73 | Each daemon answer maps to a client report. 200 gives "Okay" with the body's streams. 444 gives a failed command with its code. 401 gives "unauthorized". 400 and 500 crash the client on `res.json()`. Only 444, 400 and 500 exit 1. |

## Left out

- Engine.Handle: a body whose `file` or `name` is not a JSON string, or whose `env` is neither falsy nor an object of strings, answers `NotModelled`. The code passes such values to the subprocess library, and that library's handling is not part of this model.
- Engine.ExpValue: a numeric string `exp`, which `int()` converts, is read as non-integer text and refused with 401. JSON floats are outside the `Json` type.
- Engine.DecodeToken: the signature and `alg` stage and the checks of `iat`, `nbf`, `iss` and `aud` are parameters that pass, refuse or raise. Which headers and claims make them raise is not modelled.
- HS256 signing and SHA-512 are foreign cryptography, given as parameters. Digest binding assumes the two digests differ (`Protocol.TamperedBodyRejected`).
- The timing safety of `compare_digest` is a side-channel property. It is modelled as text equality, including its `TypeError` for non-ASCII or non-string input.
- JSON text is a parameter, in both directions. JSON numbers are integers, and an object is a map, so `json.dumps` key order is not modelled.
- `app/env.py` loads configuration from the environment. The secret is a parameter.
- HTTP transport is not modelled: Starlette routing, `await request.body()`, the debug traceback text of a 500, and `requests.post` (a parameter of `Cli.Deploy`).
- The `sh` subprocess call and its byte decoding are a parameter that returns the exit status and both streams. There is no timeout, and concurrent requests are not modelled.
- Terminal output is not modelled: `click` option parsing, coloured text and the echoed lines. A `Cli.Report` value stands for what is printed. File and stdin reading are parameters.
- Compose mode has no code in this repository.
- Cli.TimestampAsWritten: it subtracts one fixed UTC offset. Daylight-saving transitions and the truncation of the float timestamp are not modelled.

## Findings

| source | as written | input that shows it | evidently intended | confidence | as-written member | corrected member |
|---|---|---|---|---|---|---|
| app/cli.py:47 | `int(datetime.utcnow().timestamp())` reads the naive UTC wall-clock time as local time. The timestamp is therefore the true time minus the local UTC offset. | A client in UTC+3 (offset 10800 s) signs at true time T with `exp = T - 10500`. The daemon already finds this expired and answers 401. West of UTC, tokens live hours longer than five minutes. | `exp` is the true current UTC time plus 300 s. | high; not executed | `Protocol.AsWrittenTokenExpiresOnArrival` | `Protocol.FreshTokenAccepted` |

=== FILE: cli.dfy ===
/** The client command `deploy` from app/cli.py: the `-e NAME=VALUE`
    options, where the compose text comes from, the signed request, and what
    the client reports for each reply. */
module Cli {
  import opened Python
  import opened Digest
  import opened Foreign

  /** `JWT_TTL`: a token lives five minutes. */
  const JwtTtl: int := 60 * 5

  // ---------------------------------------------------------------------
  // `-e` options: `dict(e.split("=") for e in env)`

  function Count(s: string, c: char): nat {
    if s == [] then 0 else (if s[0] == c then 1 else 0) + Count(s[1..], c)
  }

  function Join(parts: seq<string>, sep: char): string
    requires |parts| >= 1
  {
    if |parts| == 1 then parts[0] else parts[0] + [sep] + Join(parts[1..], sep)
  }

  /** `s.split(sep)` for a one-character separator. */
  function Split(s: string, sep: char): (parts: seq<string>)
    ensures |parts| == Count(s, sep) + 1
    ensures Join(parts, sep) == s
    ensures forall i :: 0 <= i < |parts| ==> sep !in parts[i]
  {
    if s == [] then [""]
    else
      var rest := Split(s[1..], sep);
      if s[0] == sep then
        [""] + rest
      else
        var parts := [[s[0]] + rest[0]] + rest[1..];
        assert parts[1..] == rest[1..];
        parts
  }

  /** One `-e` option as a (name, value) pair; it must split into exactly
      two parts. */
  function EnvEntry(opt: string): (r: Option<(string, string)>)
    ensures r.Some? <==> Count(opt, '=') == 1
    ensures r.Some? ==> opt == r.value.0 + "=" + r.value.1
    ensures r.Some? ==> '=' !in r.value.0 && '=' !in r.value.1
  {
    var parts := Split(opt, '=');
    if |parts| == 2 then
      assert Join(parts[1..], '=') == parts[1];
      Some((parts[0], parts[1]))
    else None
  }

  /** The environment the options give: `None` when any option is malformed,
      otherwise each name bound by its last option. */
  function ParseEnv(opts: seq<string>): (r: Option<map<string, string>>)
    ensures r.Some? <==> forall i :: 0 <= i < |opts| ==> EnvEntry(opts[i]).Some?
  {
    if opts == [] then Some(map[])
    else
      var last := opts[|opts| - 1];
      match ParseEnv(opts[..|opts| - 1])
      case None => None
      case Some(env) =>
        match EnvEntry(last)
        case None => None
        case Some((name, value)) => Some(env[name := value])
  }

  /** The name of a well-formed option. */
  function NameOf(opt: string): string
    requires Count(opt, '=') == 1
  {
    EnvEntry(opt).value.0
  }

  /** The value of a well-formed option. */
  function ValueOf(opt: string): string
    requires Count(opt, '=') == 1
  {
    EnvEntry(opt).value.1
  }

  predicate AllWellFormed(opts: seq<string>) {
    forall j :: 0 <= j < |opts| ==> Count(opts[j], '=') == 1
  }

  /** No later option binds the same name as option i. */
  predicate LastOfItsName(opts: seq<string>, i: int)
    requires 0 <= i < |opts| && AllWellFormed(opts)
  {
    forall j :: i < j < |opts| ==> NameOf(opts[j]) != NameOf(opts[i])
  }

  /** The environment grows one option at a time, the last option's binding
      overriding. */
  lemma ParseEnvStep(opts: seq<string>)
    requires opts != [] && ParseEnv(opts).Some?
    ensures AllWellFormed(opts)
    ensures ParseEnv(opts[..|opts| - 1]).Some?
    ensures ParseEnv(opts).value
         == ParseEnv(opts[..|opts| - 1]).value[NameOf(opts[|opts| - 1]) := ValueOf(opts[|opts| - 1])]
  {
    forall j | 0 <= j < |opts| ensures Count(opts[j], '=') == 1 {
      assert EnvEntry(opts[j]).Some?;
    }
  }

  /** The names of well-formed options. */
  function Names(opts: seq<string>): set<string>
    requires AllWellFormed(opts)
  {
    set j | 0 <= j < |opts| :: NameOf(opts[j])
  }

  lemma NamesSnoc(opts: seq<string>)
    requires opts != [] && AllWellFormed(opts)
    ensures AllWellFormed(opts[..|opts| - 1])
    ensures Names(opts) == Names(opts[..|opts| - 1]) + {NameOf(opts[|opts| - 1])}
  {
    var n := |opts| - 1;
    var init := opts[..n];
    assert forall j :: 0 <= j < n ==> init[j] == opts[j];
    forall k | k in Names(opts) ensures k in Names(init) + {NameOf(opts[n])} {
      var j :| 0 <= j < |opts| && NameOf(opts[j]) == k;
      if j < n {
        assert NameOf(init[j]) == k;
      }
    }
    forall k | k in Names(init) ensures k in Names(opts) {
      var j :| 0 <= j < n && NameOf(init[j]) == k;
      assert NameOf(opts[j]) == k;
    }
  }

  /** The names bound are exactly the options' names. */
  lemma {:induction false} ParseEnvNames(opts: seq<string>)
    requires ParseEnv(opts).Some?
    ensures AllWellFormed(opts)
    ensures ParseEnv(opts).value.Keys == Names(opts)
  {
    if opts != [] {
      ParseEnvStep(opts);
      ParseEnvNames(opts[..|opts| - 1]);
      NamesSnoc(opts);
    }
  }

  /** A repeated name takes the value of its last option. */
  lemma {:induction false} ParseEnvLaterWins(opts: seq<string>, i: int)
    requires ParseEnv(opts).Some?
    requires 0 <= i < |opts| && AllWellFormed(opts) && LastOfItsName(opts, i)
    ensures NameOf(opts[i]) in ParseEnv(opts).value
    ensures ParseEnv(opts).value[NameOf(opts[i])] == ValueOf(opts[i])
  {
    ParseEnvStep(opts);
    var n := |opts| - 1;
    if i < n {
      var init := opts[..n];
      assert forall j :: 0 <= j < n ==> init[j] == opts[j];
      assert LastOfItsName(init, i);
      ParseEnvLaterWins(init, i);
      assert NameOf(opts[n]) != NameOf(opts[i]);
    }
  }

  /** Splitting a text with no separator in it gives the text back whole. */
  lemma {:induction false} SplitWithoutSeparator(s: string, sep: char)
    requires sep !in s
    ensures Split(s, sep) == [s]
  {
    if s != [] {
      SplitWithoutSeparator(s[1..], sep);
    }
  }

  lemma {:induction false} SplitPair(name: string, value: string, sep: char)
    requires sep !in name && sep !in value
    ensures Split(name + [sep] + value, sep) == [name, value]
  {
    if name == [] {
      assert ([sep] + value)[1..] == value;
      SplitWithoutSeparator(value, sep);
    } else {
      assert (name + [sep] + value)[1..] == name[1..] + [sep] + value;
      SplitPair(name[1..], value, sep);
      assert [name[0]] + name[1..] == name;
    }
  }

  /** `NAME=VALUE` written out for a name and value without `=` is read back
      as that pair. */
  lemma EnvEntryRoundTrip(name: string, value: string)
    requires '=' !in name && '=' !in value
    ensures EnvEntry(name + "=" + value) == Some((name, value))
  {
    SplitPair(name, value, '=');
  }

  // ---------------------------------------------------------------------
  // `-f`: a file path, or `-` for standard input

  /** `str.isspace` */
  predicate IsSpace(c: char) {
    var n := c as int;
    || n == 32 || 9 <= n <= 13 || 28 <= n <= 31 || n == 0x85 || n == 0xA0 || n == 0x1680
    || 0x2000 <= n <= 0x200A || n == 0x2028 || n == 0x2029 || n == 0x202F || n == 0x205F || n == 0x3000
  }

  function StripLeft(s: string): (r: string)
    ensures |r| <= |s| && r == s[|s| - |r|..]
    ensures forall i :: 0 <= i < |s| - |r| ==> IsSpace(s[i])
    ensures r == [] || !IsSpace(r[0])
  {
    if s != [] && IsSpace(s[0]) then StripLeft(s[1..]) else s
  }

  function StripRight(s: string): (r: string)
    ensures |r| <= |s| && r == s[..|r|]
    ensures forall i :: |r| <= i < |s| ==> IsSpace(s[i])
    ensures r == [] || !IsSpace(r[|r| - 1])
  {
    if s != [] && IsSpace(s[|s| - 1]) then StripRight(s[..|s| - 1]) else s
  }

  /** `str.strip()` */
  function Strip(s: string): (r: string)
    ensures var i := |s| - |StripLeft(s)|;
      && i + |r| <= |s| && r == s[i..i + |r|]
      && (forall k :: 0 <= k < i ==> IsSpace(s[k]))
      && (forall k :: i + |r| <= k < |s| ==> IsSpace(s[k]))
    ensures r == [] || (!IsSpace(r[0]) && !IsSpace(r[|r| - 1]))
  {
    StripRight(StripLeft(s))
  }

  datatype Source = Stdin | Path(path: string)

  /** The file argument is a lone `-` with whitespace around it, `-` at
      position k. */
  predicate DashAt(file: string, k: int) {
    && 0 <= k < |file| && file[k] == '-'
    && (forall i :: 0 <= i < k ==> IsSpace(file[i]))
    && (forall i :: k < i < |file| ==> IsSpace(file[i]))
  }

  lemma StripFindsDash(file: string, k: int)
    requires DashAt(file, k)
    ensures Strip(file) == "-"
  {
    var left := StripLeft(file);
    assert |left| == |file| - k;
    assert |StripRight(left)| == 1;
  }

  /** Stripping leaves a lone `-` exactly when the argument is a `-` with
      only whitespace around it. */
  lemma StrippedDash(file: string)
    ensures Strip(file) == "-" <==> exists k :: DashAt(file, k)
  {
    if exists k :: DashAt(file, k) {
      var k :| DashAt(file, k);
      StripFindsDash(file, k);
    }
    if Strip(file) == "-" {
      assert DashAt(file, |file| - |StripLeft(file)|);
    }
  }

  /** Where the compose text is read from; a path is opened as given,
      unstripped. */
  function SourceOf(file: string): (src: Source)
    ensures src == Stdin <==> exists k :: DashAt(file, k)
    ensures src.Path? ==> src.path == file
  {
    StrippedDash(file);
    if Strip(file) == "-" then Stdin else Path(file)
  }

  // ---------------------------------------------------------------------
  // The signed request

  /** The request body: exactly the keys `command`, `file`, `name`, `env`. */
  function RequestBody(command: string, text: string, name: string, env: map<string, string>): (body: Json)
    ensures body.JObject? && body.fields.Keys == {"command", "file", "name", "env"}
    ensures body.fields["file"] == JStr(text) && body.fields["name"] == JStr(name)
    ensures body.fields["command"] == JStr(command)
    ensures body.fields["env"].JObject? && body.fields["env"].fields.Keys == env.Keys
    ensures forall k :: k in env ==> body.fields["env"].fields[k] == JStr(env[k])
  {
    JObject(map[
      "command" := JStr(command),
      "file" := JStr(text),
      "name" := JStr(name),
      "env" := JObject(map k | k in env :: JStr(env[k]))])
  }

  /** A request ready to be posted: the body bytes, the token payload and
      the `Authorization` header carrying the signed token. */
  datatype Posted = Posted(body: seq<byte>, claims: Claims, authorization: string)

  /** Serialises the body once; the digest claim is over those same bytes,
      which are the bytes posted. */
  function Sign(io: Oracles, secret: string, body: Json, issuedAt: int): (p: Posted)
    ensures p.body == io.dumps(body)
    ensures p.claims.Keys == {"exp", "body_hash"}
    ensures p.claims["exp"] == JInt(issuedAt + JwtTtl)
    ensures p.claims["body_hash"] == JStr(Hex(io.sha512(p.body)))
    ensures "Bearer " <= p.authorization && p.authorization[7..] == io.jwtEncode(p.claims, secret)
  {
    var data := io.dumps(body);
    var claims := map["exp" := JInt(issuedAt + JwtTtl), "body_hash" := JStr(Hex(io.sha512(data)))];
    Posted(data, claims, "Bearer " + io.jwtEncode(claims, secret))
  }

  /** The client's clock: true seconds since the epoch, and the local
      offset from UTC in seconds (east positive). */
  datatype Clock = Clock(epoch: int, utcOffset: int)

  /** `int(datetime.utcnow().timestamp())` as written: the UTC wall-clock
      time is read back as if it were local time, so the local offset is
      subtracted from the true time. */
  function TimestampAsWritten(clock: Clock): (t: int)
    ensures t + clock.utcOffset == Timestamp(clock)
    ensures t == Timestamp(clock) <==> clock.utcOffset == 0
    ensures t < Timestamp(clock) <==> clock.utcOffset > 0
  {
    clock.epoch - clock.utcOffset
  }

  /** The current UTC timestamp the token lifetime is meant to start from. */
  function Timestamp(clock: Clock): int {
    clock.epoch
  }

  /** As written, a client east of UTC by the token lifetime or more signs
      tokens that have expired before they are sent. */
  lemma AsWrittenExpiryPrecedesSigning(clock: Clock)
    requires clock.utcOffset >= JwtTtl
    ensures TimestampAsWritten(clock) + JwtTtl <= clock.epoch
  {
  }

  // ---------------------------------------------------------------------
  // What the client reports

  datatype Report =
    | MalformedEnv                                       // nothing sent
    | Unauthorized
    | CommandFailed(code: Json, stdout: Json, stderr: Json)
    | Okay(stdout: Json, stderr: Json)
    | Crashed                                            // an exception escapes

  /** The process exit status for each report. */
  function ExitStatus(r: Report): (status: int)
    ensures status == 0 <==> r.Unauthorized? || r.Okay?
    ensures status == 1 <==> r.MalformedEnv? || r.CommandFailed? || r.Crashed?
  {
    match r
    case MalformedEnv => 1
    case Unauthorized => 0
    case CommandFailed(_, _, _) => 1
    case Okay(_, _) => 0
    case Crashed => 1
  }

  /** Reading the reply: 401 before anything else; otherwise the body must
      be JSON (`res.json()`), and an object holding the keys then read. */
  function Classify(reply: Wire): (r: Report)
    ensures r == Unauthorized <==> reply.status == 401
    ensures r.CommandFailed? <==>
      reply.status == 444 && reply.body.JsonBody? && reply.body.json.JObject?
      && var m := reply.body.json.fields; "code" in m && "stdout" in m && "stderr" in m
    ensures r.CommandFailed? ==> r == CommandFailed(reply.body.json.fields["code"],
      reply.body.json.fields["stdout"], reply.body.json.fields["stderr"])
    ensures r.Okay? <==>
      reply.status != 401 && reply.status != 444 && reply.body.JsonBody? && reply.body.json.JObject?
      && var m := reply.body.json.fields; "stdout" in m && "stderr" in m
    ensures r.Okay? ==> r == Okay(reply.body.json.fields["stdout"], reply.body.json.fields["stderr"])
    ensures r != MalformedEnv
    ensures ExitStatus(r) == 1 <==> reply.status != 401 && !r.Okay?
  {
    if reply.status == 401 then Unauthorized
    else match reply.body
      case TextBody(_) => Crashed
      case JsonBody(data) =>
        if !data.JObject? then Crashed
        else
          var m := data.fields;
          if reply.status == 444 then
            if "code" in m && "stdout" in m && "stderr" in m then CommandFailed(m["code"], m["stdout"], m["stderr"])
            else Crashed
          else if "stdout" in m && "stderr" in m then Okay(m["stdout"], m["stderr"])
          else Crashed
  }

  /** The client command: parse the options, read the compose text, sign,
      post, report. Nothing is sent when an option is malformed. The token
      lifetime starts from the corrected `Timestamp`. */
  method Deploy(io: Oracles, command: string, secret: string, name: string, file: string,
                envOpts: seq<string>, clock: Clock, stdin: string, readFile: string -> string,
                post: (seq<byte>, string) -> Wire)
    returns (sent: Option<Posted>, report: Report)
    ensures sent.None? <==> ParseEnv(envOpts).None?
    ensures sent.None? ==> report == MalformedEnv && ExitStatus(report) == 1
    ensures sent.Some? ==>
      var text := if SourceOf(file) == Stdin then stdin else readFile(file);
      && sent.value == Sign(io, secret, RequestBody(command, text, name, ParseEnv(envOpts).value), Timestamp(clock))
      && report == Classify(post(sent.value.body, sent.value.authorization))
  {
    var env := ParseEnv(envOpts);
    if env.None? {
      sent, report := None, MalformedEnv;
      return;
    }
    var text: string;
    if SourceOf(file) == Stdin {
      text := stdin;
    } else {
      text := readFile(file);
    }
    var posted := Sign(io, secret, RequestBody(command, text, name, env.value), Timestamp(clock));
    var reply := post(posted.body, posted.authorization);
    sent := Some(posted);
    report := Classify(reply);
  }
}

=== FILE: commands.dfy ===
/** `docker.stack.deploy` from app/commands.py: the argument list handed to
    `docker stack deploy`, and how the process outcome becomes a `Result`
    or an `Error`. */
module Commands {
  import opened Python
  import opened Foreign

  /** The success record. Its fields are declared `stderr` first, exactly as
      the `Result` NamedTuple in app/commands.py declares them; positional
      construction fills them in that order. */
  datatype Result = Result(stderr: string, stdout: string)

  /** The failure raised for a non-zero exit. */
  datatype Error = Error(code: int, stdout: string, stderr: string)

  datatype Deployed = Done(result: Result) | Failed(error: Error)

  /** The options handed to `docker stack deploy`, stack name last. */
  function StackParams(name: string, prune: bool, auth: bool): (params: seq<string>)
    ensures |params| == 3 + (if prune then 1 else 0) + (if auth then 1 else 0)
    ensures params[..2] == ["-c", "-"]
    ensures params[|params| - 1] == name
    ensures forall i :: 2 <= i < |params| - 1 ==> params[i] in {"--prune", "--with-registry-auth"}
    ensures "--prune" in params[2..|params| - 1] <==> prune
    ensures "--with-registry-auth" in params[2..|params| - 1] <==> auth
    ensures prune && auth ==> params[2] == "--prune" && params[3] == "--with-registry-auth"
  {
    var options := (if prune then ["--prune"] else []) + (if auth then ["--with-registry-auth"] else []);
    assert (["-c", "-"] + options + [name])[2..|options| + 2] == options;
    ["-c", "-"] + options + [name]
  }

  /** `env or dict()`: an absent environment is an empty one. */
  function EnvOrEmpty(env: Option<map<string, string>>): (r: map<string, string>)
    ensures env.None? ==> r == map[]
    ensures env.Some? ==> r == env.value
  {
    if env.Some? then env.value else map[]
  }

  /** What one call of `docker.stack.deploy` yields, given how docker exits.
      The compose text is the process's standard input. */
  function DeployOutcome(file: string, name: string, env: Option<map<string, string>>,
                         prune: bool, auth: bool, docker: Docker): (r: Deployed)
    ensures var exit := docker(StackParams(name, prune, auth), file, EnvOrEmpty(env));
      && (r.Failed? <==> exit.code != 0)
      && (r.Failed? ==> r.error == Error(exit.code, exit.stdout, exit.stderr))
      && (r.Done? ==> r.result.stderr == exit.stdout && r.result.stdout == exit.stderr)
  {
    var exit := docker(StackParams(name, prune, auth), file, EnvOrEmpty(env));
    if exit.code == 0 then Done(Result(exit.stdout, exit.stderr))
    else Failed(Error(exit.code, exit.stdout, exit.stderr))
  }

  /** `docker.stack.deploy(file, name, env, prune, auth)`: builds the
      argument list one option at a time, runs docker once, and maps its
      exit status. */
  method Deploy(file: string, name: string, env: Option<map<string, string>>,
                prune: bool, auth: bool, docker: Docker)
    returns (outcome: Deployed)
    ensures outcome == DeployOutcome(file, name, env, prune, auth, docker)
  {
    var vars := if env.Some? then env.value else map[];
    var params := ["-c", "-"];
    if prune {
      params := params + ["--prune"];
    }
    if auth {
      params := params + ["--with-registry-auth"];
    }
    params := params + [name];
    assert params == StackParams(name, prune, auth);
    var exit := docker(params, file, vars);
    if exit.code == 0 {
      outcome := Done(Result(exit.stdout, exit.stderr));
    } else {
      outcome := Failed(Error(exit.code, exit.stdout, exit.stderr));
    }
  }

  /** An absent environment and an empty one run docker identically. */
  lemma AbsentEnvIsEmpty(file: string, name: string, prune: bool, auth: bool, docker: Docker)
    ensures DeployOutcome(file, name, None, prune, auth, docker)
         == DeployOutcome(file, name, Some(map[]), prune, auth, docker)
  {
  }
}

=== FILE: digest.dfy ===
/** The `hexdigest()` text of a SHA-512 digest. The hash itself is foreign;
    its hex rendering is modelled, because the handler compares texts. */
module Digest {
  import opened Python

  /** The 64 bytes of a SHA-512 digest. */
  type Sha512Digest = d: seq<byte> | |d| == 64 witness seq(64, _ => 0 as byte)

  predicate IsHexDigit(c: char) {
    '0' <= c <= '9' || 'a' <= c <= 'f'
  }

  function HexDigit(n: int): (c: char)
    requires 0 <= n < 16
    ensures IsHexDigit(c)
  {
    if n < 10 then (48 + n) as char else (87 + n) as char
  }

  function DigitValue(c: char): (n: int)
    requires IsHexDigit(c)
    ensures 0 <= n < 16 && HexDigit(n) == c
  {
    if c <= '9' then c as int - 48 else c as int - 87
  }

  /** `hexdigest()`: two lower-case hex digits per byte, high nibble first. */
  function Hex(d: seq<byte>): (h: string)
    ensures |h| == 2 * |d|
    ensures forall i :: 0 <= i < |h| ==> IsHexDigit(h[i])
  {
    if d == [] then ""
    else [HexDigit(d[0] as int / 16), HexDigit(d[0] as int % 16)] + Hex(d[1..])
  }

  /** Reads a hex text back into bytes; the inverse of Hex. */
  function Unhex(h: string): (d: seq<byte>)
    requires |h| % 2 == 0
    requires forall i :: 0 <= i < |h| ==> IsHexDigit(h[i])
    ensures 2 * |d| == |h|
  {
    if h == [] then []
    else [(16 * DigitValue(h[0]) + DigitValue(h[1])) as byte] + Unhex(h[2..])
  }

  lemma {:induction false} UnhexHex(d: seq<byte>)
    ensures Unhex(Hex(d)) == d
  {
    if d != [] {
      var h := Hex(d);
      assert h[2..] == Hex(d[1..]);
      UnhexHex(d[1..]);
      assert DigitValue(h[0]) == d[0] as int / 16;
      assert DigitValue(h[1]) == d[0] as int % 16;
    }
  }

  /** Distinct digests never render to the same text. */
  lemma HexInjective(a: seq<byte>, b: seq<byte>)
    requires Hex(a) == Hex(b)
    ensures a == b
  {
    UnhexHex(a);
    UnhexHex(b);
  }

  /** A digest's text is 128 ASCII characters, so `compare_digest` accepts it. */
  lemma DigestTextIsAscii(d: Sha512Digest)
    ensures |Hex(d)| == 128 && IsAscii(Hex(d))
  {
  }
}

=== FILE: engine.dfy ===
/** The webhook handler `deploy` from app/engine.py: one linear pipeline
    (token, digest, JSON fields, stack deploy) whose exceptions are early
    returns, and the mapping of each outcome to an HTTP response. */
module Engine {
  import opened Python
  import opened Digest
  import opened Foreign
  import Commands

  /** `JWT_OPTS`: the claims a token must carry. */
  const RequiredClaims: seq<string> := ["exp"]

  const BearerPrefix: string := "Bearer "

  /** The parts of the HTTP request the handler reads. */
  datatype Request = Request(authorization: Option<string>, body: seq<byte>)

  /** Exceptions raised inside the handler's `try` block. */
  datatype Raised =
    | AuthError
    | InvalidTokenError
    | JSONDecodeError
    | KeyError
    | TypeError
    | UnicodeDecodeError
    | CommandError(error: Commands.Error)

  /** The stack-deploy arguments the handler takes out of the body. */
  datatype Fields = Fields(file: string, name: string, env: Option<map<string, string>>)

  /** How far the pipeline gets before the stack deploy: an exception, the
      fields to deploy with, or JSON values of a type that the subprocess
      boundary of this model does not take. */
  datatype Gate = Stop(raised: Raised) | Run(fields: Fields) | OutsideModel

  datatype Response =
    | Ok(stdout: string, stderr: string)                      // 200, JSON
    | CommandFailed(code: int, stdout: string, stderr: string) // 444, JSON
    | MalformedJson                                           // 400, text
    | Unauthorized                                            // 401, text
    | ServerError                                             // exception not caught: 500
    | NotModelled

  /** `str.removeprefix` */
  function RemovePrefix(s: string, prefix: string): (r: string)
    ensures prefix <= s ==> prefix + r == s
    ensures !(prefix <= s) ==> r == s
  {
    if prefix <= s then s[|prefix|..] else s
  }

  /** The token: the `Authorization` header, empty when absent, with one
      leading `Bearer ` taken off. */
  function TokenOf(authorization: Option<string>): (token: string)
    ensures authorization.None? ==> token == ""
    ensures authorization.Some? && BearerPrefix <= authorization.value ==>
      BearerPrefix + token == authorization.value
    ensures authorization.Some? && !(BearerPrefix <= authorization.value) ==>
      token == authorization.value
  {
    var header := if authorization.Some? then authorization.value else "";
    RemovePrefix(header, BearerPrefix)
  }

  /** `int(payload["exp"])` as the token library evaluates it: an integer
      (a boolean counts as 0 or 1), a `ValueError` for text, or a
      `TypeError` for null, a list or an object. */
  datatype ExpRead = Integer(value: int) | NotInteger | NotNumber

  function ExpValue(exp: Json): (r: ExpRead)
    ensures exp.JInt? ==> r == Integer(exp.i)
    ensures exp.JBool? ==> r == Integer(if exp.b then 1 else 0)
    ensures exp.JStr? ==> r == NotInteger
    ensures r.NotNumber? <==> exp.JNull? || exp.JArray? || exp.JObject?
  {
    match exp
    case JInt(i) => Integer(i)
    case JBool(b) => Integer(if b then 1 else 0)
    case JStr(_) => NotInteger
    case JNull => NotNumber
    case JArray(_) => NotNumber
    case JObject(_) => NotNumber
  }

  /** The `exp` claim reads as an integer later than now. */
  predicate Unexpired(claims: Claims, now: int) {
    "exp" in claims && ExpValue(claims["exp"]).Integer? && ExpValue(claims["exp"]).value > now
  }

  /** What `jwt.decode` does: return the claims, raise an
      `InvalidTokenError`, or raise an exception of another class. */
  datatype Decoded = Valid(claims: Claims) | InvalidToken | Crashes

  /** `jwt.decode(token, secret, algorithms="HS256", options=JWT_OPTS)`, in
      the library's order: signature, required claims, `iat` and `nbf`,
      `exp`, then `iss` and `aud`. */
  function DecodeToken(io: Oracles, token: string, secret: string, now: int): (r: Decoded)
    ensures r.Valid? <==>
      && io.jwtVerify(token, secret).Verified?
      && var claims := io.jwtVerify(token, secret).claims;
      && io.checkIssuedAt(claims, now) == Passed
      && Unexpired(claims, now)
      && io.checkAudience(claims) == Passed
    ensures r == Crashes <==>
      || io.jwtVerify(token, secret).Raising?
      || (&& io.jwtVerify(token, secret).Verified?
          && var claims := io.jwtVerify(token, secret).claims;
          && "exp" in claims && claims["exp"] != JNull
          && (|| io.checkIssuedAt(claims, now) == Raises
              || (io.checkIssuedAt(claims, now) == Passed && ExpValue(claims["exp"]).NotNumber?)
              || (&& io.checkIssuedAt(claims, now) == Passed && Unexpired(claims, now)
                  && io.checkAudience(claims) == Raises)))
    ensures r.Valid? ==> io.jwtVerify(token, secret) == Verified(r.claims)
    ensures io.jwtVerify(token, secret).Rejected? ==> r == InvalidToken
    ensures io.jwtVerify(token, secret).Raising? ==> r == Crashes
    ensures io.jwtVerify(token, secret).Verified? ==>
      var claims := io.jwtVerify(token, secret).claims;
      "exp" !in claims || claims["exp"] == JNull ==> r == InvalidToken
    ensures io.jwtVerify(token, secret).Verified? ==>
      var claims := io.jwtVerify(token, secret).claims;
      && "exp" in claims && (claims["exp"].JArray? || claims["exp"].JObject?)
      && io.checkIssuedAt(claims, now) == Passed
      ==> r == Crashes
  {
    match io.jwtVerify(token, secret)
    case Rejected => InvalidToken
    case Raising => Crashes
    case Verified(claims) =>
      // a required claim that is absent or null is missing
      if exists c :: c in RequiredClaims && (c !in claims || claims[c] == JNull) then InvalidToken
      else
        assert "exp" in RequiredClaims;
        match io.checkIssuedAt(claims, now)
        case Invalid => InvalidToken
        case Raises => Crashes
        case Passed =>
          match ExpValue(claims["exp"])
          case NotInteger => InvalidToken
          case NotNumber => Crashes
          case Integer(exp) =>
            if exp <= now then InvalidToken
            else match io.checkAudience(claims)
              case Invalid => InvalidToken
              case Raises => Crashes
              case Passed => Valid(claims)
  }

  /** `claims.get('body_hash', "")` */
  function BodyHashClaim(claims: Claims): (claimed: Json)
    ensures "body_hash" in claims ==> claimed == claims["body_hash"]
    ensures "body_hash" !in claims ==> claimed == JStr("")
  {
    if "body_hash" in claims then claims["body_hash"] else JStr("")
  }

  /** The token decodes and its `body_hash` claim is the hex digest of the
      exact body received. */
  predicate Authenticated(req: Request, secret: string, now: int, io: Oracles) {
    var decoded := DecodeToken(io, TokenOf(req.authorization), secret, now);
    decoded.Valid? && BodyHashClaim(decoded.claims) == JStr(Hex(io.sha512(req.body)))
  }

  /** `env` as handed to the stack deploy: a falsy value becomes the empty
      environment there, an object of strings is the environment. */
  function EnvArgument(j: Json): (r: Option<Option<map<string, string>>>)
    ensures r.Some? <==> Falsy(j) || (j.JObject? && forall k :: k in j.fields ==> j.fields[k].JStr?)
    ensures r.Some? && Falsy(j) ==> Commands.EnvOrEmpty(r.value) == map[]
    ensures r.Some? && !Falsy(j) ==>
      && r.value.Some? && r.value.value.Keys == j.fields.Keys
      && forall k :: k in j.fields ==> j.fields[k] == JStr(r.value.value[k])
  {
    if Falsy(j) then Some(None)
    else if j.JObject? && forall k :: k in j.fields ==> j.fields[k].JStr? then
      Some(Some(map k | k in j.fields :: j.fields[k].s))
    else None
  }

  /** `data['file']`, `data['name']`, `data['env']`, in that order. */
  function Extract(data: Json): (g: Gate)
    ensures g.Run? <==>
      && data.JObject? && "file" in data.fields && "name" in data.fields && "env" in data.fields
      && data.fields["file"].JStr? && data.fields["name"].JStr? && EnvArgument(data.fields["env"]).Some?
    ensures g.Run? ==> data.JObject? && "file" in data.fields && "name" in data.fields && "env" in data.fields
    ensures g.Run? ==> data.fields["file"] == JStr(g.fields.file) && data.fields["name"] == JStr(g.fields.name)
    ensures g.Run? ==>
      var env := data.fields["env"];
      Falsy(env) || (env.JObject? && forall k :: k in env.fields ==> env.fields[k].JStr?)
    ensures g.Run? ==>
      var env := data.fields["env"];
      Commands.EnvOrEmpty(g.fields.env)
        == if Falsy(env) then map[] else map k | k in env.fields :: env.fields[k].s
    ensures g == Stop(TypeError) <==> !data.JObject?
    ensures g == Stop(KeyError) <==>
      data.JObject? && !("file" in data.fields && "name" in data.fields && "env" in data.fields)
  {
    if !data.JObject? then Stop(TypeError)
    else if "file" !in data.fields || "name" !in data.fields || "env" !in data.fields then Stop(KeyError)
    else
      var file := data.fields["file"];
      var name := data.fields["name"];
      var env := EnvArgument(data.fields["env"]);
      if file.JStr? && name.JStr? && env.Some? then Run(Fields(file.s, name.s, env.value))
      else OutsideModel
  }

  /** Everything the handler does before the stack deploy. */
  function Admit(req: Request, secret: string, now: int, io: Oracles): (g: Gate)
    ensures g.Run? ==> Authenticated(req, secret, now, io)
  {
    match DecodeToken(io, TokenOf(req.authorization), secret, now)
    case InvalidToken => Stop(InvalidTokenError)
    case Crashes => Stop(TypeError)
    case Valid(claims) =>
      var claimed := BodyHashClaim(claims);
      if !claimed.JStr? || !IsAscii(claimed.s) then Stop(TypeError)
      else if Hex(io.sha512(req.body)) != claimed.s then Stop(AuthError)
      else match io.loads(req.body)
        case DecodeError => Stop(JSONDecodeError)
        case NotUtf8 => Stop(UnicodeDecodeError)
        case Parsed(data) => Extract(data)
  }

  /** The handler's `except` clauses. */
  function Catch(e: Raised): (r: Response)
    ensures r == Unauthorized <==> e == AuthError || e == InvalidTokenError
    ensures r == MalformedJson <==> e == JSONDecodeError || e == KeyError
    ensures r.CommandFailed? <==> e.CommandError?
    ensures e.CommandError? ==> r == CommandFailed(e.error.code, e.error.stdout, e.error.stderr)
    ensures r == ServerError <==> e == TypeError || e == UnicodeDecodeError
  {
    match e
    case CommandError(err) => CommandFailed(err.code, err.stdout, err.stderr)
    case JSONDecodeError => MalformedJson
    case KeyError => MalformedJson
    case AuthError => Unauthorized
    case InvalidTokenError => Unauthorized
    case TypeError => ServerError
    case UnicodeDecodeError => ServerError
  }

  /** The stack deploy the handler runs, always with pruning and registry
      authentication. */
  function RunStack(f: Fields, io: Oracles): (r: Commands.Deployed)
    ensures var exit := io.docker(["-c", "-", "--prune", "--with-registry-auth", f.name],
                                  f.file, Commands.EnvOrEmpty(f.env));
      && (r.Failed? <==> exit.code != 0)
      && (r.Failed? ==> r.error == Commands.Error(exit.code, exit.stdout, exit.stderr))
      && (r.Done? ==> r.result == Commands.Result(exit.stdout, exit.stderr))
  {
    assert Commands.StackParams(f.name, true, true) == ["-c", "-", "--prune", "--with-registry-auth", f.name];
    Commands.DeployOutcome(f.file, f.name, f.env, true, true, io.docker)
  }

  /** The request handler. */
  function Handle(req: Request, secret: string, now: int, io: Oracles): (r: Response)
    ensures r.Ok? || r.CommandFailed? ==> Authenticated(req, secret, now, io)
    ensures !Authenticated(req, secret, now, io) ==> r == Unauthorized || r == ServerError
  {
    match Admit(req, secret, now, io)
    case Stop(e) => Catch(e)
    case OutsideModel => NotModelled
    case Run(f) =>
      match RunStack(f, io)
      case Done(res) => Ok(res.stdout, res.stderr)
      case Failed(err) => Catch(CommandError(err))
  }

  /** The HTTP response Starlette sends. An uncaught exception gives the
      debug traceback as plain text; its text is not modelled. */
  function ToWire(r: Response): (w: Option<Wire>)
    ensures w.None? <==> r.NotModelled?
    ensures w.Some? ==> w.value.status in {200, 444, 400, 401, 500}
    ensures w.Some? && w.value.body.JsonBody? <==> r.Ok? || r.CommandFailed?
    ensures r.Ok? ==>
      w == Some(Wire(200, JsonBody(JObject(map["stdout" := JStr(r.stdout), "stderr" := JStr(r.stderr)]))))
    ensures r.CommandFailed? ==>
      w == Some(Wire(444, JsonBody(JObject(
        map["code" := JInt(r.code), "stdout" := JStr(r.stdout), "stderr" := JStr(r.stderr)]))))
    ensures r == MalformedJson ==> w == Some(Wire(400, TextBody("Malformed json")))
    ensures r == Unauthorized ==> w == Some(Wire(401, TextBody("Unauthorized")))
    ensures r == ServerError ==> w.Some? && w.value.status == 500 && w.value.body.TextBody?
  {
    match r
    case Ok(out, err) => Some(Wire(200, JsonBody(JObject(map["stdout" := JStr(out), "stderr" := JStr(err)]))))
    case CommandFailed(code, out, err) =>
      Some(Wire(444, JsonBody(JObject(map["code" := JInt(code), "stdout" := JStr(out), "stderr" := JStr(err)]))))
    case MalformedJson => Some(Wire(400, TextBody("Malformed json")))
    case Unauthorized => Some(Wire(401, TextBody("Unauthorized")))
    case ServerError => Some(Wire(500, TextBody("")))
    case NotModelled => None
  }

  /** The docker process a stack deploy of these fields runs. */
  function ExitOf(f: Fields, io: Oracles): Exit {
    io.docker(Commands.StackParams(f.name, true, true), f.file, Commands.EnvOrEmpty(f.env))
  }

  /** A token the library rejects gives 401, whatever the body. */
  lemma InvalidTokenIsUnauthorized(req: Request, secret: string, now: int, io: Oracles)
    requires io.jwtVerify(TokenOf(req.authorization), secret).Rejected?
    ensures Handle(req, secret, now, io) == Unauthorized
  {
  }

  /** A token whose header makes the signature stage raise something other
      than an `InvalidTokenError` gives 500, whatever the body. */
  lemma UnverifiableTokenIsServerError(req: Request, secret: string, now: int, io: Oracles)
    requires io.jwtVerify(TokenOf(req.authorization), secret).Raising?
    ensures Handle(req, secret, now, io) == ServerError
  {
  }

  /** A token without `exp`, or with a null `exp`, gives 401, whatever the
      body. */
  lemma MissingExpIsUnauthorized(req: Request, secret: string, now: int, io: Oracles)
    requires io.jwtVerify(TokenOf(req.authorization), secret).Verified?
    requires var claims := io.jwtVerify(TokenOf(req.authorization), secret).claims;
      "exp" !in claims || claims["exp"] == JNull
    ensures Handle(req, secret, now, io) == Unauthorized
  {
  }

  /** An expired token gives 401, however well its digest matches, unless
      the library's `iat`/`nbf` check has already raised. */
  lemma ExpiredTokenIsUnauthorized(req: Request, secret: string, now: int, io: Oracles, exp: int)
    requires io.jwtVerify(TokenOf(req.authorization), secret).Verified?
    requires var claims := io.jwtVerify(TokenOf(req.authorization), secret).claims;
      && "exp" in claims && claims["exp"] == JInt(exp)
      && io.checkIssuedAt(claims, now) != Raises
    requires exp <= now
    ensures Handle(req, secret, now, io) == Unauthorized
  {
  }

  /** A signed `exp` that is a list or an object makes `int()` raise a
      `TypeError` inside `jwt.decode`; no `except` clause catches it, so the
      answer is 500, whatever the body. */
  lemma NonNumericExpIsServerError(req: Request, secret: string, now: int, io: Oracles)
    requires io.jwtVerify(TokenOf(req.authorization), secret).Verified?
    requires var claims := io.jwtVerify(TokenOf(req.authorization), secret).claims;
      && "exp" in claims && (claims["exp"].JArray? || claims["exp"].JObject?)
      && io.checkIssuedAt(claims, now) == Passed
    ensures Handle(req, secret, now, io) == ServerError
  {
  }

  /** A `body_hash` claim that is text but not the digest of this body
      gives 401. */
  lemma DigestMismatchIsUnauthorized(req: Request, secret: string, now: int, io: Oracles, claimed: string)
    requires DecodeToken(io, TokenOf(req.authorization), secret, now).Valid?
    requires BodyHashClaim(DecodeToken(io, TokenOf(req.authorization), secret, now).claims) == JStr(claimed)
    requires IsAscii(claimed) && claimed != Hex(io.sha512(req.body))
    ensures Handle(req, secret, now, io) == Unauthorized
  {
  }

  /** A valid token with no `body_hash` claim gives 401: the empty default
      never equals a 128-character digest. */
  lemma MissingBodyHashIsUnauthorized(req: Request, secret: string, now: int, io: Oracles)
    requires DecodeToken(io, TokenOf(req.authorization), secret, now).Valid?
    requires "body_hash" !in DecodeToken(io, TokenOf(req.authorization), secret, now).claims
    ensures Handle(req, secret, now, io) == Unauthorized
  {
    DigestTextIsAscii(io.sha512(req.body));
    DigestMismatchIsUnauthorized(req, secret, now, io, "");
  }

  /** Until the request is authenticated, neither the JSON parser nor docker
      is consulted: the response does not depend on them. */
  lemma AuthenticationPrecedesParsing(req: Request, secret: string, now: int, io: Oracles,
                                      loads: seq<byte> -> Parsed, docker: Docker)
    requires !Authenticated(req, secret, now, io)
    ensures Handle(req, secret, now, io) == Handle(req, secret, now, io.(loads := loads, docker := docker))
  {
  }

  /** Once authenticated, a body that is not JSON, or an object that lacks
      `file`, `name` or `env`, gives 400. */
  lemma MalformedAfterAuthentication(req: Request, secret: string, now: int, io: Oracles)
    requires Authenticated(req, secret, now, io)
    requires || io.loads(req.body) == DecodeError
             || (io.loads(req.body).Parsed? && io.loads(req.body).value.JObject?
                 && var m := io.loads(req.body).value.fields;
                    !("file" in m && "name" in m && "env" in m))
    ensures Handle(req, secret, now, io) == MalformedJson
  {
    DigestTextIsAscii(io.sha512(req.body));
  }

  /** The stack deploy runs exactly when the token decodes, the digest
      matches and the body is an object with `file`, `name` and `env` of
      the types the subprocess takes; it then runs `docker stack deploy -c -
      --prune --with-registry-auth <name>` with the file text on standard
      input. The body's `command` field plays no part. */
  lemma RunsOnlyWhenAdmitted(req: Request, secret: string, now: int, io: Oracles)
    ensures Admit(req, secret, now, io).Run? <==>
      && Authenticated(req, secret, now, io)
      && io.loads(req.body).Parsed?
      && Extract(io.loads(req.body).value).Run?
    ensures Admit(req, secret, now, io).Run? ==>
      var f := Admit(req, secret, now, io).fields;
      var m := io.loads(req.body).value.fields;
      && m["file"] == JStr(f.file) && m["name"] == JStr(f.name)
      && Commands.StackParams(f.name, true, true) == ["-c", "-", "--prune", "--with-registry-auth", f.name]
  {
    DigestTextIsAscii(io.sha512(req.body));
  }

  /** The `command` key of the body is never read. */
  lemma CommandFieldIgnored(fields: map<string, Json>, command: Json)
    ensures Extract(JObject(fields)) == Extract(JObject(fields["command" := command]))
  {
  }

  /** A command that exits non-zero gives 444 with its exit status and both
      streams. */
  lemma CommandErrorResponse(req: Request, secret: string, now: int, io: Oracles)
    requires Admit(req, secret, now, io).Run?
    requires ExitOf(Admit(req, secret, now, io).fields, io).code != 0
    ensures var exit := ExitOf(Admit(req, secret, now, io).fields, io);
      Handle(req, secret, now, io) == CommandFailed(exit.code, exit.stdout, exit.stderr)
  {
  }

  /** A command that exits zero gives 200 with the `Result` fields: the
      captured standard error under `stdout`, and standard output under
      `stderr`. */
  lemma SuccessResponse(req: Request, secret: string, now: int, io: Oracles)
    requires Admit(req, secret, now, io).Run?
    requires ExitOf(Admit(req, secret, now, io).fields, io).code == 0
    ensures var exit := ExitOf(Admit(req, secret, now, io).fields, io);
      Handle(req, secret, now, io) == Ok(exit.stderr, exit.stdout)
  {
  }

  /** The four answers the handler gives, each with the exact condition
      that produces it. */
  lemma Classification(req: Request, secret: string, now: int, io: Oracles)
    ensures var decoded := DecodeToken(io, TokenOf(req.authorization), secret, now);
      Handle(req, secret, now, io) == Unauthorized <==>
        || decoded == InvalidToken
        || (decoded.Valid? && BodyHashClaim(decoded.claims).JStr? && IsAscii(BodyHashClaim(decoded.claims).s)
            && BodyHashClaim(decoded.claims).s != Hex(io.sha512(req.body)))
    ensures Handle(req, secret, now, io) == MalformedJson <==>
      && Authenticated(req, secret, now, io)
      && (|| io.loads(req.body) == DecodeError
          || (io.loads(req.body).Parsed? && Extract(io.loads(req.body).value) == Stop(KeyError)))
    ensures Handle(req, secret, now, io).CommandFailed? <==>
      Admit(req, secret, now, io).Run? && ExitOf(Admit(req, secret, now, io).fields, io).code != 0
    ensures Handle(req, secret, now, io).Ok? <==>
      Admit(req, secret, now, io).Run? && ExitOf(Admit(req, secret, now, io).fields, io).code == 0
  {
    DigestTextIsAscii(io.sha512(req.body));
  }
}

=== FILE: foreign.dfy ===
/** The calls the daemon and its client make into code outside this model:
    hashing, token signing, JSON text, the docker subprocess and HTTP. */
module Foreign {
  import opened Python
  import opened Digest

  /** The payload of a signed token. */
  type Claims = map<string, Json>

  /** How the docker process ended: exit status and both captured streams,
      already decoded to text. */
  datatype Exit = Exit(code: int, stdout: string, stderr: string)

  /** `docker stack deploy` as run through `sh`: arguments, standard input
      and environment in, the process outcome back. */
  type Docker = (seq<string>, string, map<string, string>) -> Exit

  /** What one of the token library's claim checks does: pass, raise an
      `InvalidTokenError`, or raise an exception of another class (a
      `TypeError` from `int()` on a claim that is a list, say). */
  datatype ClaimCheck = Passed | Invalid | Raises

  /** The outcome of the signature stage: the payload, an
      `InvalidTokenError`, or an exception of another class (a header whose
      `alg` is neither text nor falsy, tested with `in` against the text
      "HS256", raises `TypeError`; a falsy `alg` is an `InvalidTokenError`). */
  datatype Verification = Verified(claims: Claims) | Rejected | Raising

  datatype Oracles = Oracles(
    /** `sha512(bytes).digest()` */
    sha512: seq<byte> -> Sha512Digest,
    /** `jwt.encode(payload, secret, algorithm="HS256")` */
    jwtEncode: (Claims, string) -> string,
    /** The first stage of `jwt.decode(token, secret, algorithms="HS256")`:
        token structure, algorithm and signature. */
    jwtVerify: (string, string) -> Verification,
    /** The library's checks of `iat` and `nbf`, made after the required
        claims and before `exp`. */
    checkIssuedAt: (Claims, int) -> ClaimCheck,
    /** The library's checks of `iss` and `aud`, made after `exp`. */
    checkAudience: Claims -> ClaimCheck,
    /** `json.dumps(value).encode()` */
    dumps: Json -> seq<byte>,
    /** `json.loads(bytes)` */
    loads: seq<byte> -> Parsed,
    docker: Docker)

  /** An HTTP response body as the client sees it: JSON that `res.json()`
      reads, or text that `res.json()` cannot parse. The daemon's text
      answers ("Malformed json", "Unauthorized", a traceback) are all of the
      second kind. */
  datatype Body = JsonBody(json: Json) | TextBody(text: string)
  datatype Wire = Wire(status: int, body: Body)
}

=== FILE: protocol.dfy ===
/** The client and the daemon together: what the daemon does with a request
    the client signed, and what the client reports for each answer. */
module Protocol {
  import opened Python
  import opened Digest
  import opened Foreign
  import Commands
  import Engine
  import Cli

  /** The request the daemon receives for a posted one. */
  function Received(p: Cli.Posted, body: seq<byte>): Engine.Request {
    Engine.Request(Some(p.authorization), body)
  }

  /** The token library hands back no claims but the signed ones, and
      neither its signature stage nor its checks of the other registered
      claims raise on the signed token. */
  predicate VerifiesOnlyAsSigned(io: Oracles, p: Cli.Posted, secret: string, now: int) {
    var verified := io.jwtVerify(Engine.TokenOf(Some(p.authorization)), secret);
    && (verified.Verified? ==> verified.claims == p.claims)
    && !verified.Raising?
    && io.checkIssuedAt(p.claims, now) != Raises
    && io.checkAudience(p.claims) != Raises
  }

  lemma TokenOfPosted(p: Cli.Posted)
    requires "Bearer " <= p.authorization
    ensures Engine.TokenOf(Some(p.authorization)) == p.authorization[7..]
  {
  }

  /** The daemon reads the client's environment object back as the same
      environment for docker. */
  lemma EnvRoundTrip(env: map<string, string>)
    ensures var j := JObject(map k | k in env :: JStr(env[k]));
      Engine.EnvArgument(j).Some? && Commands.EnvOrEmpty(Engine.EnvArgument(j).value) == env
  {
    var j := JObject(map k | k in env :: JStr(env[k]));
    if env != map[] {
      var k :| k in env;
      assert k in j.fields;
      assert !Falsy(j);
      var back := map k | k in j.fields :: j.fields[k].s;
      assert back == env;
    }
  }

  /** Round trip: a request the client signed, presented unchanged before
      its token expires, runs `docker stack deploy -c - --prune
      --with-registry-auth <name>` with the client's compose text on standard
      input and the client's environment, and answers with that run's
      outcome. */
  lemma SignedRequestRuns(io: Oracles, secret: string, command: string, text: string, name: string,
                          env: map<string, string>, issuedAt: int, now: int)
    requires var p := Cli.Sign(io, secret, Cli.RequestBody(command, text, name, env), issuedAt);
      io.jwtVerify(io.jwtEncode(p.claims, secret), secret) == Verified(p.claims)
      && io.checkIssuedAt(p.claims, now) == Passed && io.checkAudience(p.claims) == Passed
    requires var body := Cli.RequestBody(command, text, name, env);
      io.loads(io.dumps(body)) == Parsed(body)
    requires now < issuedAt + Cli.JwtTtl
    ensures var p := Cli.Sign(io, secret, Cli.RequestBody(command, text, name, env), issuedAt);
      var exit := io.docker(["-c", "-", "--prune", "--with-registry-auth", name], text, env);
      Engine.Handle(Received(p, p.body), secret, now, io)
        == if exit.code == 0 then Engine.Ok(exit.stderr, exit.stdout)
           else Engine.CommandFailed(exit.code, exit.stdout, exit.stderr)
  {
    var body := Cli.RequestBody(command, text, name, env);
    var p := Cli.Sign(io, secret, body, issuedAt);
    var req := Received(p, p.body);
    TokenOfPosted(p);
    DigestTextIsAscii(io.sha512(p.body));
    assert Engine.Authenticated(req, secret, now, io);
    EnvRoundTrip(env);
    var f := Engine.Fields(text, name, Engine.EnvArgument(body.fields["env"]).value);
    assert Engine.Admit(req, secret, now, io) == Engine.Run(f);
    assert Commands.StackParams(name, true, true) == ["-c", "-", "--prune", "--with-registry-auth", name];
    assert Commands.EnvOrEmpty(f.env) == env;
    assert Engine.ExitOf(f, io) == io.docker(["-c", "-", "--prune", "--with-registry-auth", name], text, env);
  }

  /** A token presented at or after its expiry is refused with 401, whatever
      body comes with it. */
  lemma ExpiredTokenRejected(io: Oracles, secret: string, body: Json, issuedAt: int, now: int,
                             presented: seq<byte>)
    requires VerifiesOnlyAsSigned(io, Cli.Sign(io, secret, body, issuedAt), secret, now)
    requires now >= issuedAt + Cli.JwtTtl
    ensures Engine.Handle(Received(Cli.Sign(io, secret, body, issuedAt), presented), secret, now, io)
         == Engine.Unauthorized
  {
    TokenOfPosted(Cli.Sign(io, secret, body, issuedAt));
  }

  /** A token signed for one body is refused with 401 when it comes with a
      body whose digest differs. */
  lemma TamperedBodyRejected(io: Oracles, secret: string, body: Json, issuedAt: int, now: int,
                             presented: seq<byte>)
    requires VerifiesOnlyAsSigned(io, Cli.Sign(io, secret, body, issuedAt), secret, now)
    requires io.sha512(presented) != io.sha512(Cli.Sign(io, secret, body, issuedAt).body)
    ensures Engine.Handle(Received(Cli.Sign(io, secret, body, issuedAt), presented), secret, now, io)
         == Engine.Unauthorized
  {
    var p := Cli.Sign(io, secret, body, issuedAt);
    TokenOfPosted(p);
    DigestTextIsAscii(io.sha512(p.body));
    if Hex(io.sha512(presented)) == Hex(io.sha512(p.body)) {
      HexInjective(io.sha512(presented), io.sha512(p.body));
    }
  }

  /** As written, a client whose clock is set to a zone at least five
      minutes east of UTC signs a token the daemon refuses at the very
      instant it is signed. */
  lemma AsWrittenTokenExpiresOnArrival(io: Oracles, secret: string, body: Json, clock: Cli.Clock)
    requires clock.utcOffset >= Cli.JwtTtl
    requires VerifiesOnlyAsSigned(io, Cli.Sign(io, secret, body, Cli.TimestampAsWritten(clock)), secret, clock.epoch)
    ensures var p := Cli.Sign(io, secret, body, Cli.TimestampAsWritten(clock));
      Engine.Handle(Received(p, p.body), secret, clock.epoch, io) == Engine.Unauthorized
  {
    Cli.AsWrittenExpiryPrecedesSigning(clock);
    ExpiredTokenRejected(io, secret, body, Cli.TimestampAsWritten(clock), clock.epoch,
                         Cli.Sign(io, secret, body, Cli.TimestampAsWritten(clock)).body);
  }

  /** With the corrected timestamp the same request, presented within five
      minutes, is authenticated and deployed in every time zone. */
  lemma FreshTokenAccepted(io: Oracles, secret: string, command: string, text: string, name: string,
                           env: map<string, string>, clock: Cli.Clock, now: int)
    requires var p := Cli.Sign(io, secret, Cli.RequestBody(command, text, name, env), Cli.Timestamp(clock));
      io.jwtVerify(io.jwtEncode(p.claims, secret), secret) == Verified(p.claims)
      && io.checkIssuedAt(p.claims, now) == Passed && io.checkAudience(p.claims) == Passed
    requires var body := Cli.RequestBody(command, text, name, env);
      io.loads(io.dumps(body)) == Parsed(body)
    requires clock.epoch <= now < clock.epoch + Cli.JwtTtl
    ensures var p := Cli.Sign(io, secret, Cli.RequestBody(command, text, name, env), Cli.Timestamp(clock));
      var r := Engine.Handle(Received(p, p.body), secret, now, io);
      r.Ok? || r.CommandFailed?
  {
    SignedRequestRuns(io, secret, command, text, name, env, Cli.Timestamp(clock), now);
  }

  /** As written, a client west of UTC signs a token the daemon still
      accepts after the intended five minutes, for as long again as the
      client's offset. */
  lemma AsWrittenWestTokenOutlivesLifetime(io: Oracles, secret: string, command: string, text: string,
                                           name: string, env: map<string, string>, clock: Cli.Clock,
                                           now: int)
    requires var p := Cli.Sign(io, secret, Cli.RequestBody(command, text, name, env), Cli.TimestampAsWritten(clock));
      io.jwtVerify(io.jwtEncode(p.claims, secret), secret) == Verified(p.claims)
      && io.checkIssuedAt(p.claims, now) == Passed && io.checkAudience(p.claims) == Passed
    requires var body := Cli.RequestBody(command, text, name, env);
      io.loads(io.dumps(body)) == Parsed(body)
    requires clock.utcOffset < 0
    requires clock.epoch + Cli.JwtTtl <= now < clock.epoch - clock.utcOffset + Cli.JwtTtl
    ensures var p := Cli.Sign(io, secret, Cli.RequestBody(command, text, name, env), Cli.TimestampAsWritten(clock));
      var r := Engine.Handle(Received(p, p.body), secret, now, io);
      r.Ok? || r.CommandFailed?
  {
    SignedRequestRuns(io, secret, command, text, name, env, Cli.TimestampAsWritten(clock), now);
  }

  /** What the client reports for each answer of the daemon, and its exit
      status: only a failed command or an unreadable answer exits 1. */
  lemma ClientReadsServer(r: Engine.Response)
    requires !r.NotModelled?
    ensures var report := Cli.Classify(Engine.ToWire(r).value);
      && (r.Ok? ==> report == Cli.Okay(JStr(r.stdout), JStr(r.stderr)))
      && (r.CommandFailed? ==> report == Cli.CommandFailed(JInt(r.code), JStr(r.stdout), JStr(r.stderr)))
      && (r == Engine.Unauthorized ==> report == Cli.Unauthorized)
      && (r == Engine.MalformedJson || r == Engine.ServerError ==> report == Cli.Crashed)
      && (Cli.ExitStatus(report) == 1 <==> r.CommandFailed? || r == Engine.MalformedJson || r == Engine.ServerError)
  {
  }
}

=== FILE: python.dfy ===
/** Shapes of the Python values the daemon and its client pass around. */
module Python {

  newtype byte = x: int | 0 <= x < 256

  datatype Option<+T> = None | Some(value: T)

  /** A JSON value as `json.loads` hands it back. An object is a dict, so a
      later duplicate key has already replaced an earlier one; numbers are
      integers only. */
  datatype Json =
    | JNull
    | JBool(b: bool)
    | JInt(i: int)
    | JStr(s: string)
    | JArray(items: seq<Json>)
    | JObject(fields: map<string, Json>)

  /** Python truthiness of a decoded JSON value is false. */
  predicate Falsy(j: Json) {
    match j
    case JNull => true
    case JBool(b) => !b
    case JInt(i) => i == 0
    case JStr(s) => s == ""
    case JArray(items) => items == []
    case JObject(fields) => fields == map[]
  }

  /** What `json.loads` does with a byte string: a value, a
      `JSONDecodeError`, or a `UnicodeDecodeError` for bytes that are not
      valid text. */
  datatype Parsed = Parsed(value: Json) | DecodeError | NotUtf8

  predicate IsAscii(s: string) {
    forall i :: 0 <= i < |s| ==> s[i] as int < 128
  }
}
